=== FILE: README.md ===
# Fibonacci spiral server — a Dafny model of its core

`FibonacciServer.java` is a small HTTP server. Its `/api/fibonacci` endpoint describes a
Fibonacci spiral as a list of quarter-circle arcs, and its `/api/fibonacci-image` endpoint
draws one. This project models the arithmetic core of both and proves properties of it:

- the Fibonacci table `fib[0..terms+1]` that both endpoints build, in Java `int` arithmetic
  (`fibonacci.dfy`, with Java's 32-bit wrap-around and runtime exceptions in `java_lang.dfy`);
- `generateFibonacciData`, which chains arcs so that each one starts where the previous one
  ends (`spiral_data.dfy`);
- the centre walk and per-arc colour of `renderFibonacciImage` (`spiral_image.dfy`);
- the clamp of the term count to [1, 20] (`terms.dfy`);
- `parseQuery` and `parseForm`, including Java's `String.split` rules (`split.dfy`,
  `query.dfy`).

Angles in both loops start at 0 and only grow by pi/2, so in exact arithmetic the angle
after k steps is k * pi/2. The model therefore keeps an integer quarter-turn count and reads cosine
and sine from the tables `[1, 0, -1, 0]` and `[0, 1, 0, -1]` (`quarter.dfy`). Coordinates
are Dafny `real`s. This is the exact real-valued geometry that the Java doubles
approximate, not bit-exact double arithmetic. Java exceptions are `Failure` values of a
`Result`, and Java `null` is `None`.

Facts about the code that the model keeps:

- the geometry endpoint clamps the term count to [1, 20] (lines 91-92);
- the image endpoint does not clamp the term count (line 107);
- each arc record carries its centre, its `radius` and its start angle;
- the image uses 20 pixels per unit and starts at the canvas centre.

The image endpoint computes its centres as if y pointed up, adding `r * sin` to y
(lines 179-180). `Arc2D` draws on a canvas whose y axis points down: the point at angle t
of a circle with centre c is drawn at `c + r (cos t, -sin t)`. The model keeps both:
`Quarter.Toward`, `StartPoint` and `EndPoint` are the y-up arithmetic, and
`SpiralImage.OnCanvas`, `DrawnStart` and `DrawnEnd` are where the strokes land.

## Model

| member | source | states |
|---|---|---|
| JavaLang.Wrap | FibonacciServer.java:129 | the `int` that an overflowing sum leaves is congruent to the true sum modulo 2^32, and in-range sums are unchanged |
| JavaLang.WrapAdd | FibonacciServer.java:129 | adding wrapped values and wrapping gives the wrapped true sum |
| Fibonacci.Table | FibonacciServer.java:124-129 | the filled array has the requested length, seeds 0 and 1, and every later entry is the `int` sum of the two before it |
| Fibonacci.FibTable | FibonacciServer.java:124-126 | allocation and seeding succeed exactly when 0 <= terms <= 2^31 - 3; a negative or overflowing `terms + 2` throws `NegativeArraySizeException`, and a length of 0 or 1 throws `ArrayIndexOutOfBoundsException` at that index; the table then has `terms + 2` entries, entry i being Fib(i) reduced to an `int` |
| Fibonacci.RecurrenceIsWrappedFib | FibonacciServer.java:128-129 | any sequence seeded 0, 1 and closed under the wrapped recurrence holds the wrapped Fibonacci numbers |
| Fibonacci.TableIsWrappedFib | FibonacciServer.java:124-129 | every table entry is the true Fibonacci number reduced to an `int` |
| Fibonacci.FibFitsInt32 | FibonacciServer.java:128-129 | up to index 46 storing a Fibonacci number wraps nothing |
| Fibonacci.FibOverflowsAt47 | FibonacciServer.java:128-129 | entry 47 has wrapped to a negative `int` |
| Fibonacci.TableExact | FibonacciServer.java:124-129 | tables of length up to 47 hold the exact Fibonacci numbers |
| Fibonacci.TableWraps | FibonacciServer.java:124-129 | in a longer table, entry 47 differs from Fib(47) |
| Fibonacci.TableExactIff | FibonacciServer.java:124-129 | the table is exact if and only if its length is at most 47, so every clamped request (at most 20 arcs) is exact |
| Quarter.Cos | FibonacciServer.java:141-142 | cos(q pi/2) is 1 at whole turns, -1 at half turns and 0 at odd quarter turns |
| Quarter.Sin | FibonacciServer.java:141-142 | sin(q pi/2) is 1 one quarter past a whole turn, -1 three quarters past, and 0 at half turns |
| Quarter.QuarterTurn | FibonacciServer.java:140-142 | one more quarter turn rotates (cos, sin) to (-sin, cos); the direction is a unit vector |
| SpiralData.Advance | FibonacciServer.java:140-147 | after an arc of radius r, the new centre is such that an arc of the look-ahead radius at the next angle starts exactly at the current arc's end point |
| SpiralData.Chain | FibonacciServer.java:134-148 | the loop emits one arc per index, in order; arc i has radius fib[i] and start angle advanced one quarter per arc; the first arc is at the starting centre; each arc is tangent to the next |
| SpiralData.Generate | FibonacciServer.java:123-150 | succeeds exactly when the table does; then exactly `terms` arcs, arc k + 1 with radius the `int` Fib(k + 1) and start angle k * pi/2, the first at the origin, consecutive arcs tangent |
| SpiralData.GenerateExact | FibonacciServer.java:131-147 | for 1..45 arcs the radii are the exact Fibonacci numbers and the first arc is centre (0, 0), radius 1, start 0 |
| SpiralData.GenerateSix | FibonacciServer.java:134-147 | six arcs have radii 1, 1, 2, 3, 5, 8 and start angles 0 to 5 quarter turns |
| Terms.Clamp | FibonacciServer.java:91-92 | the clamped count lies in [1, 20], an in-range count is unchanged, and the result is the in-range count nearest the input |
| Terms.ClampIdempotent | FibonacciServer.java:91-92 | clamping twice is clamping once |
| Terms.FibonacciEndpoint | FibonacciServer.java:90-94 | for any parsed count the endpoint's geometry never fails: one arc per clamped term, exact Fibonacci radii, unit first arc at the origin, consecutive arcs tangent |
| SpiralImage.OnCanvas | FibonacciServer.java:175-176 | the point `Arc2D` draws at angle q pi/2 of a circle is the y-up point seen in the mirror y -> -y |
| SpiralImage.Centre | FibonacciServer.java:167-168 | the walk starts at the canvas centre, as far from each edge as from the opposite one |
| SpiralImage.PixelRadius | FibonacciServer.java:172 | the radius is the `int` product fib[i] * 20 wrapped to 32 bits, so it is a whole number in `int` range, congruent to the product modulo 2^32, and equal to it when the product fits |
| SpiralImage.ArcColor | FibonacciServer.java:173 | the colour of arc i exists (no `IllegalArgumentException`) exactly when -5 <= i <= 20, has every channel in 0..255, and arc 21 throws with channels (260, 20, 95) |
| SpiralImage.ColorGradient | FibonacciServer.java:173 | over arcs 1..20 red strictly rises, blue strictly falls, green is constant |
| SpiralImage.Walk | FibonacciServer.java:171-182 | the walk succeeds exactly when it stops before arc 21; then it draws one stroke per index with radius the `int` 20 * fib[i], start angle advancing a quarter per arc, the colour of that index, the first centred on the start, and each next arc centred on the previous arc's y-up end point |
| SpiralImage.Render | FibonacciServer.java:163-182 | with the unclamped count, rendering succeeds exactly when 0 <= terms <= 20; counts from 21 to 2^31 - 3 throw at arc 21's colour, while the two largest overflow `terms + 2` and throw `NegativeArraySizeException` in the allocation; one stroke per term, each centred on the previous arc's y-up end point |
| SpiralImage.PixelRadiusExact | FibonacciServer.java:172 | for arcs up to 21 the pixel radius is exactly 20 * Fib(i) |
| SpiralImage.RenderStrokes | FibonacciServer.java:163-182 | a successful render's arc k + 1 has radius 20 * Fib(k + 1), start angle k * pi/2 and colour (50 + 10(k + 1), 20, 200 - 5(k + 1)); the first is centred at (W / 2, H / 2) |
| TangentImage.ImageArcsLeaveGaps | FibonacciServer.java:171-182 | as written, for 2..20 terms no drawn arc starts on the canvas where the previous drawn arc ends |
| TangentImage.FibonacciArcsGap | FibonacciServer.java:172-180 | two consecutive image arcs, of radii 20 Fib(k + 1) and 20 Fib(k + 2), the second centred on the first's y-up end point, never meet on the canvas |
| TangentImage.CentredOnEndGap | FibonacciServer.java:175-180 | an arc centred on the previous arc's y-up end point, one quarter further on, starts at the previous drawn end exactly when its radius times the cosine is zero and twice the previous radius minus its own, times the sine, is zero |
| TangentImage.CentredOnEndGapIfUneven | FibonacciServer.java:175-180 | such an arc of positive radius never meets the previous one, unless it leaves vertically with exactly twice the previous radius |
| TangentImage.FibGrows | FibonacciServer.java:129 | every Fibonacci number except Fib(1) is below the next one |
| TangentImage.ImageGapExample | FibonacciServer.java:167-180 | for two terms on a 600 x 600 canvas, arc 1 is drawn ending at (300, 280) but arc 2 is drawn starting at (300, 300) |
| TangentImage.CanvasAdvance | FibonacciServer.java:178-180 | the corrected step: the next arc of the next radius, at the next angle, is drawn starting at the current arc's drawn end |
| TangentImage.TangentWalk | FibonacciServer.java:171-182 | the corrected walk keeps the stroke count, radii, start angles, colours and first centre of `SpiralImage.Walk`; only the later centres move, and every drawn arc starts where the previous drawn arc ends |
| TangentImage.RenderTangent | FibonacciServer.java:163-182 | the corrected render succeeds exactly when 0 <= terms <= 20 and its consecutive drawn arcs meet on the canvas |
| TangentImage.PlaceKeepsTangency | FibonacciServer.java:145-146 | placing a world arc on the canvas (scale 20, y turned down) sends its start and end points to where the placed arc is drawn, so world arcs are tangent exactly when their placed arcs meet |
| TangentImage.PlaceToward | FibonacciServer.java:179-180 | placing a point r away in a quarter direction gives the drawn point 20 r away from the placed centre |
| TangentImage.PlaceInjective | FibonacciServer.java:167-168 | placing on the canvas sends distinct world points to distinct canvas points |
| TangentImage.PlaceAdvance | FibonacciServer.java:145-146 | placing on the canvas turns the geometry endpoint's chaining step into the corrected canvas step |
| TangentImage.TangentWalkPlacesChain | FibonacciServer.java:134-148 | the corrected image walk draws the geometry endpoint's chain scaled by 20, y turned down, about the start |
| TangentImage.RenderTangentIsPlacedData | FibonacciServer.java:131-182 | the corrected image is exactly the geometry endpoint's spiral scaled to 20 pixels per unit, y turned down and centred on the canvas |
| JavaSplit.IndexOf | FibonacciServer.java:225 | the found position holds the separator and none occurs before it |
| JavaSplit.Pieces | FibonacciServer.java:224-225 | splitting at every separator gives at least one piece, none containing the separator |
| JavaSplit.JoinPieces | FibonacciServer.java:224-225 | the pieces joined with the separator give back the string |
| JavaSplit.PiecesJoin | FibonacciServer.java:224-225 | separator-free pieces are recovered by splitting their join |
| JavaSplit.StripTrailingEmpty | FibonacciServer.java:224-225 | the result is the longest prefix not ending in an empty string, everything dropped being empty |
| JavaSplit.Split | FibonacciServer.java:224-225 | a string without the separator splits into itself alone; otherwise no part holds the separator, the last part is non-empty, and there are no parts at all exactly when the string is nothing but separators |
| JavaSplit.SplitRebuilds | FibonacciServer.java:224-225 | when the separator occurs, the string is the join of its parts followed by one separator per dropped trailing piece; when no part is left, it is one separator fewer than there were pieces |
| JavaSplit.StrippedRebuilds | FibonacciServer.java:224-225 | the same rebuilding for the stripped pieces of any string |
| JavaSplit.StrippedEmptyIff | FibonacciServer.java:224-225 | every piece is dropped exactly when every character is the separator |
| JavaSplit.JoinEndsWith | FibonacciServer.java:224-225 | a join of parts ends with the last part |
| JavaSplit.JoinTrailingEmpty | FibonacciServer.java:224-225 | joining extra empty pieces appends one separator per piece |
| Query.KeyValueSound | FibonacciServer.java:225-226 | a segment that yields a pair is key, `=`, a non-empty value, then only `=` signs; neither key nor value holds `=` |
| Query.KeyValueComplete | FibonacciServer.java:225-226 | every segment of that shape yields exactly that key and value |
| Query.KeyValue | FibonacciServer.java:225-226 | a segment without `=` yields no pair |
| Query.KeyValueExamples | FibonacciServer.java:225-226 | "a=b" gives ("a", "b"), "=b" gives key "" and "a=b=" gives ("a", "b") |
| Query.KeyValueDropped | FibonacciServer.java:225-226 | "a=", "a==b" and "a" yield no pair |
| Query.Pairs | FibonacciServer.java:224-226 | a pair is collected exactly when some segment yields it |
| Query.PairsAppend | FibonacciServer.java:224-227 | pairs are collected in segment order: the pairs of two runs of segments are the first run's followed by the second's |
| Query.PairsCons | FibonacciServer.java:224-227 | a segment's own pair, if it yields one, comes before the pairs of the segments after it |
| Query.DecodeAll | FibonacciServer.java:214-215 | decoding succeeds exactly when every key and value decodes, and then decodes each pair in place |
| Query.Latest | FibonacciServer.java:227 | the reference for a sequence of `put`s: absent exactly when no pair has the key, else the value of a pair with that key that no later pair overrides |
| Query.LatestCons | FibonacciServer.java:227 | an earlier pair only supplies a key's value when no later pair has that key |
| Query.PutsAllCons | FibonacciServer.java:224-227 | putting one pair and then the rest is putting all of them |
| Query.Store | FibonacciServer.java:211-216 | the loop never removes a key, and segments that yield no pair leave the map as it was |
| Query.StoreLastWins | FibonacciServer.java:211-217 | the loop succeeds exactly when every pair decodes, and then leaves each key with the value of the last pair that has it |
| Query.ParseQuery | FibonacciServer.java:220-230 | a null query gives the empty map; otherwise the keys are exactly those of segments splitting into two parts, each with the value of the last such segment |
| Query.ParseForm | FibonacciServer.java:207-218 | a null body gives the empty map; otherwise it fails exactly when a key or value fails to decode, and else maps each decoded key to the decoded value of the last pair with that key |

## Left out

- HTTP server set-up, routing, request-method checks, CORS headers and `sendJSON`/`sendText`
  (lines 23-120, 189-205, 232-236): network plumbing.
- Serving `index.html` (lines 37-47): file I/O.
- AWT drawing (lines 155-161, 175-176, 184-185) and PNG encoding (lines 110-114): foreign
  graphics libraries. The centre, angle, radius and colour arithmetic is modelled, and so
  are the start and end points where `Arc2D` draws each arc. Pixels, antialiasing and
  stroke width are left out. So is any failure of `new BufferedImage` (line 155): a size
  of 0 or less, a canvas whose W * H reaches `Integer.MAX_VALUE`, or running out of heap.
  `SpiralImage.Render` therefore says nothing about the canvas size. Also left out are the
  strokes already drawn before an exception at arc 21.
- The `%.4f` text of each arc record and the `[ , ]` join (lines 136-138, 150): floating-point
  text formatting. `SpiralData.Generate` yields the records' values in emission order. The
  file never imports `java.util.Locale`, so line 136 does not compile.
- The calculator endpoint (lines 63-75): double arithmetic with NaN.
- `Integer.parseInt` and `Double.parseDouble` (lines 63-64, 90, 107-108), with the default
  texts "6" and "600": the parsed values are taken as given. Unparsable text makes
  `parseInt` throw `NumberFormatException`, which is not modelled.
- `URLDecoder.decode` (lines 214-215): a parameter `decode` of `Query.ParseForm`, whose
  `Failure` stands for the exception it may throw.
- `Math.cos`/`Math.sin` and the angle in doubles: the running angle `angle + Math.PI / 2`
  is not exactly k * pi/2 in doubles, and `Math.cos` at odd multiples of pi/2 and
  `Math.sin` at multiples of pi return tiny non-zero values. The Java centres therefore
  drift slightly from the exact ones used here.
- `OutOfMemoryError` when allocating a huge table.
- SpiralImage.ArcColor: channel arithmetic is unbounded. Java's `int` overflow of
  `i * 10` needs |i| above 2 * 10^8, where `new Color` can succeed again. The loop
  throws at i = 21 long before that.

## Findings

| source | as written | input that shows it | evidently intended | confidence | as-written member | corrected member |
|---|---|---|---|---|---|---|
| FibonacciServer.java:175-180 | after an arc of radius r at end angle e the image walk moves the centre to `c + r (cos e, sin e)`, its end point if y pointed up, while `Arc2D` draws that end at `c + r (cos e, -sin e)` on the y-down canvas; the next arc is drawn from its new centre with no backing off by its own radius | `terms = 2`, `size = 600`: arc 1 is drawn ending at (300, 280) but arc 2 is drawn starting at (300, 300); for every count from 2 to 20 no consecutive pair of drawn arcs meets | a connected spiral: the next centre at the drawn end minus the next radius along `(cos e, -sin e)`, the canvas form of lines 145-146; the image is then the geometry endpoint's spiral scaled by 20, y turned down and centred | medium, not executed | TangentImage.ImageArcsLeaveGaps | TangentImage.RenderTangent |

=== FILE: fibonacci.dfy ===
/**
 * The Fibonacci table both spiral builders start from: an `int` array two longer than the
 * term count, seeded with 0 and 1, each later entry the sum of the two before it in Java
 * `int` arithmetic. One look-ahead entry beyond the last arc is needed by the chaining step.
 */
module Fibonacci {
  import opened Wrappers
  import opened JavaLang

  /** The mathematical Fibonacci numbers: the reference the table is measured against. */
  function Fib(n: nat): nat
  {
    if n < 2 then n else Fib(n - 1) + Fib(n - 2)
  }

  /** Entry `i` of `t` is the `int` sum of the two entries before it. */
  predicate SumOfPrevious(t: seq<Int32>, i: nat)
    requires 2 <= i < |t|
  {
    t[i] == Wrap(t[i - 1] as int + t[i - 2])
  }

  /**
   * The filled array of length `n` (at least 2): the two seeds and then every later
   * entry the `int` sum of its two predecessors, exactly as the filling loop leaves it.
   */
  function Table(n: nat): (t: seq<Int32>)
    requires n >= 2
    ensures |t| == n && t[0] == 0 && t[1] == 1
    ensures forall i :: 2 <= i < n ==> SumOfPrevious(t, i)
  {
    if n == 2 then [0, 1]
    else
      var p := Table(n - 1);
      var t := p + [Wrap(p[n - 2] as int + p[n - 3])];
      assert forall i :: 2 <= i < n - 1 ==> SumOfPrevious(p, i) ==> SumOfPrevious(t, i);
      t
  }

  /**
   * Allocating and seeding the table for `terms` arcs. The length `terms + 2` is itself
   * an `int` sum; a negative length throws, and a length below 2 makes one of the two
   * seed stores run off the end of the array.
   */
  function FibTable(terms: Int32): (r: Result<seq<Int32>, JavaException>)
    ensures r.Success? <==> 0 <= terms <= INT_MAX - 2
    ensures terms < -2 || INT_MAX - 2 < terms ==> r.Failure? && r.error.NegativeArraySize?
    ensures -2 <= terms < 0 ==> r == Failure(ArrayIndexOutOfBounds(terms + 2))
    ensures r.Success? ==> |r.value| == terms + 2
    ensures r.Success? ==> forall i :: 0 <= i < |r.value| ==> r.value[i] == Wrap(Fib(i))
  {
    var len := Wrap(terms + 2);
    if len < 0 then Failure(NegativeArraySize(len))
    else if len < 2 then Failure(ArrayIndexOutOfBounds(len))
    else
      TableIsWrappedFib(len);
      Success(Table(len))
  }

  /** Every entry of the table is the true Fibonacci number reduced to an `int`. */
  lemma TableIsWrappedFib(n: nat)
    requires n >= 2
    ensures forall i :: 0 <= i < n ==> Table(n)[i] == Wrap(Fib(i))
  {
    forall i | 0 <= i < n
      ensures Table(n)[i] == Wrap(Fib(i))
    {
      RecurrenceIsWrappedFib(Table(n), i);
    }
  }

  /**
   * Any `int` sequence seeded with 0, 1 and closed under the wrapped recurrence holds
   * the wrapped Fibonacci numbers, because wrapping commutes with addition.
   */
  lemma {:induction false} RecurrenceIsWrappedFib(t: seq<Int32>, i: nat)
    requires |t| >= 2 && t[0] == 0 && t[1] == 1
    requires forall j :: 2 <= j < |t| ==> SumOfPrevious(t, j)
    requires i < |t|
    ensures t[i] == Wrap(Fib(i))
  {
    if i >= 2 {
      assert SumOfPrevious(t, i);
      RecurrenceIsWrappedFib(t, i - 1);
      RecurrenceIsWrappedFib(t, i - 2);
      WrappedFibStep(i);
    }
  }

  /** The wrapped recurrence step reproduces the wrapped Fibonacci number. */
  lemma WrappedFibStep(i: nat)
    requires i >= 2
    ensures Wrap(Wrap(Fib(i - 1)) as int + Wrap(Fib(i - 2))) == Wrap(Fib(i))
  {
    WrapAdd(Fib(i - 1), Fib(i - 2));
  }

  /** The Fibonacci numbers never decrease. */
  lemma {:induction false} FibMonotone(i: nat, j: nat)
    requires i <= j
    ensures Fib(i) <= Fib(j)
    decreases j - i
  {
    if i < j {
      FibMonotone(i, j - 1);
      assert Fib(j - 1) <= Fib(j);
    }
  }

  /** Fib(46) is the largest Fibonacci number below 2^31; Fib(47) already exceeds it. */
  lemma FibInt32Limit()
    ensures Fib(46) == 1836311903 <= INT_MAX < Fib(47) == 2971215073
  {
    FibAt21();
    assert Fib(32) == 2178309 && Fib(33) == 3524578;
    assert Fib(40) == 102334155 && Fib(41) == 165580141;
  }

  /** Fib(21) and Fib(22), the largest entries of a table for at most 20 arcs. */
  lemma FibAt21()
    ensures Fib(21) == 10946 && Fib(22) == 17711
  {
    assert Fib(11) == 89 && Fib(12) == 144;
  }

  /** Up to index 46 the Fibonacci numbers fit in an `int`, so storing them wraps nothing. */
  lemma FibFitsInt32(i: nat)
    requires i <= 46
    ensures Wrap(Fib(i)) == Fib(i)
  {
    FibMonotone(i, 46);
    FibInt32Limit();
  }

  /** Index 47 is the first at which the stored entry has wrapped to a negative `int`. */
  lemma FibOverflowsAt47()
    ensures Wrap(Fib(47)) < 0
  {
    FibInt32Limit();
  }

  /**
   * The table holds the exact Fibonacci numbers precisely when its length is at most 47
   * (at most 45 arcs): from index 47 on the stored entry is a wrapped-around value.
   */
  lemma TableExactIff(n: nat)
    requires n >= 2
    ensures (forall i :: 0 <= i < n ==> Table(n)[i] == Fib(i)) <==> n <= 47
  {
    if n <= 47 {
      TableExact(n);
    } else {
      TableWraps(n);
    }
  }

  /** Tables of length up to 47 hold the exact Fibonacci numbers. */
  lemma TableExact(n: nat)
    requires 2 <= n <= 47
    ensures forall i :: 0 <= i < n ==> Table(n)[i] == Fib(i)
  {
    TableIsWrappedFib(n);
    forall i | 0 <= i < n
      ensures Table(n)[i] == Fib(i)
    {
      FibFitsInt32(i);
    }
  }

  /** In any longer table entry 47 has wrapped around. */
  lemma TableWraps(n: nat)
    requires n > 47
    ensures Table(n)[47] != Fib(47)
  {
    TableIsWrappedFib(n);
    FibOverflowsAt47();
  }
}

=== FILE: java_lang.dfy ===
/**
 * The parts of Java's semantics the server's arithmetic depends on: 32-bit two's
 * complement `int` arithmetic and the runtime exceptions the modelled code can raise.
 */
module JavaLang {

  const INT_MIN: int := -0x8000_0000
  const INT_MAX: int := 0x7FFF_FFFF
  const TWO_32: int := 0x1_0000_0000

  /** The values of a Java `int`. */
  type Int32 = x: int | INT_MIN <= x <= INT_MAX

  /** The unchecked exceptions that the modelled code can throw. */
  datatype JavaException =
    | NegativeArraySize(size: int)            // `new int[n]` with n < 0
    | ArrayIndexOutOfBounds(index: int)       // a store past the end of an array
    | IllegalColor(red: int, green: int, blue: int)  // `new Color(r, g, b)` outside 0..255
    | IllegalEscape(text: string)             // `URLDecoder.decode` on a malformed escape

  /**
   * Reduces a mathematical integer to the Java `int` that an overflowing
   * addition or multiplication leaves behind (two's complement wrap-around).
   */
  function Wrap(x: int): (r: Int32)
    ensures (x - r) % TWO_32 == 0
    ensures INT_MIN <= x <= INT_MAX ==> r == x
  {
    (x - INT_MIN) % TWO_32 + INT_MIN
  }

  /** Wrapping commutes with addition: an `int` sum of wrapped values is the wrapped sum. */
  lemma WrapAdd(a: int, b: int)
    ensures Wrap(Wrap(a) + Wrap(b)) == Wrap(a + b)
  {
  }
}

=== FILE: quarter.dfy ===
/**
 * Plane geometry at angles that are whole multiples of a right angle. Both spiral
 * builders start their angle at 0 and only ever add pi/2 to it, so after k steps the
 * angle is exactly k * pi/2; the model keeps the quarter-turn count k and reads cosine
 * and sine from their four-entry tables.
 */
module Quarter {

  /** A point of the plane (x to the right, y up, as in the builders' arithmetic). */
  datatype Point = Point(x: real, y: real)

  /** cos(q * pi/2): 1 at whole turns, -1 at half turns, 0 in between. */
  function Cos(q: int): (c: int)
    ensures q % 4 == 0 ==> c == 1
    ensures q % 4 == 2 ==> c == -1
    ensures q % 2 == 1 ==> c == 0
  {
    [1, 0, -1, 0][q % 4]
  }

  /** sin(q * pi/2): 1 a quarter turn past a whole turn, -1 three quarters past, 0 at half turns. */
  function Sin(q: int): (s: int)
    ensures q % 4 == 1 ==> s == 1
    ensures q % 4 == 3 ==> s == -1
    ensures q % 2 == 0 ==> s == 0
  {
    [0, 1, 0, -1][q % 4]
  }

  /** A quarter turn counter-clockwise rotates the unit vector (cos, sin) to (-sin, cos). */
  lemma QuarterTurn(q: int)
    ensures Cos(q + 1) == -Sin(q) && Sin(q + 1) == Cos(q)
    ensures Cos(q) * Cos(q) + Sin(q) * Sin(q) == 1
  {
  }

  /** The point at distance `r` from `p` in direction q * pi/2: (p.x + r cos, p.y + r sin). */
  function Toward(p: Point, r: real, q: int): Point
  {
    Point(p.x + r * Cos(q) as real, p.y + r * Sin(q) as real)
  }

  /**
   * One quarter-circle of a spiral: centre, radius and start angle `quarter * pi/2`;
   * it sweeps one quarter turn counter-clockwise.
   */
  datatype Arc = Arc(center: Point, radius: real, quarter: nat)

  /** The point where an arc begins, at its start angle. */
  function StartPoint(a: Arc): Point
  {
    Toward(a.center, a.radius, a.quarter)
  }

  /** The point where an arc ends, one quarter turn past its start angle. */
  function EndPoint(a: Arc): Point
  {
    Toward(a.center, a.radius, a.quarter + 1)
  }

  /**
   * Two arcs meet smoothly when the second begins where the first ends, at the angle at
   * which the first ends: then both centres lie on one line through the shared point
   * and the two curves share their tangent there.
   */
  predicate Tangent(a: Arc, b: Arc)
  {
    EndPoint(a) == StartPoint(b) && b.quarter == a.quarter + 1
  }
}

=== FILE: query.dfy ===
/**
 * `parseQuery` and `parseForm`: a query string or form body becomes a map by splitting on
 * `&`, splitting each segment on `=`, and storing the segments that split into exactly
 * two parts, later segments overwriting earlier ones. `parseForm` also URL-decodes key and
 * value; the decoder is a parameter of the model.
 */
module Query {
  import opened Wrappers
  import opened JavaLang
  import opened JavaSplit

  /** A decoder for keys and values; `Failure` is the exception it throws. */
  type Decoder = string -> Result<string, JavaException>

  /** The key and value of one `&`-separated segment, if `split("=")` gives two parts. */
  function KeyValue(segment: string): (r: Option<(string, string)>)
    ensures '=' !in segment ==> r == None
  {
    var kv := Split(segment, '=');
    if |kv| == 2 then Some((kv[0], kv[1])) else None
  }

  /**
   * A segment that yields a pair is a key and a non-empty value, neither holding `=`,
   * possibly followed by `=` signs (which `split` drops as trailing empty parts).
   */
  lemma KeyValueSound(segment: string, k: string, v: string)
    requires KeyValue(segment) == Some((k, v))
    ensures '=' !in k && '=' !in v && v != ""
    ensures exists n: nat :: segment == k + ['='] + v + Repeat('=', n)
  {
    var kv := Split(segment, '=');
    assert '=' in segment;
    SplitRebuilds(segment, '=');
    var n := |Pieces(segment, '=')| - 2;
    assert Join(kv, '=') == k + ['='] + v;
    assert segment == k + ['='] + v + Repeat('=', n);
  }

  /** Conversely, every segment of that shape yields exactly that key and value. */
  lemma KeyValueComplete(k: string, v: string, n: nat)
    requires '=' !in k && '=' !in v && v != ""
    ensures KeyValue(k + ['='] + v + Repeat('=', n)) == Some((k, v))
  {
    var segment := k + ['='] + v + Repeat('=', n);
    var all := [k, v] + Repeat("", n);
    JoinTrailingEmpty([k, v], n, '=');
    assert Join([k, v], '=') == k + ['='] + v;
    assert Join(all, '=') == segment;
    PiecesJoin(all, '=');
    assert segment[|k|] == '=';
    var kept := StripTrailingEmpty(all);
    assert all[1] == v != "";
    assert |kept| == 2;
    assert kept == [k, v];
  }

  /** Concrete segments: the value must be non-empty, the key may be empty. */
  lemma KeyValueExamples()
    ensures KeyValue("a=b") == Some(("a", "b"))
    ensures KeyValue("=b") == Some(("", "b"))
    ensures KeyValue("a=b=") == Some(("a", "b"))
  {
    KeyValueComplete("a", "b", 0);
    assert "a" + ['='] + "b" + Repeat('=', 0) == "a=b";
    KeyValueComplete("", "b", 0);
    assert "" + ['='] + "b" + Repeat('=', 0) == "=b";
    KeyValueComplete("a", "b", 1);
    assert "a" + ['='] + "b" + Repeat('=', 1) == "a=b=";
  }

  /** Concrete segments that are dropped: an empty value, two values, no `=` at all. */
  lemma KeyValueDropped()
    ensures KeyValue("a=") == None
    ensures KeyValue("a==b") == None
    ensures KeyValue("a") == None
  {
    PiecesAfterFirst("a", "", '=');
    assert "a" + ['='] + "" == "a=";
    assert StripTrailingEmpty(["a", ""]) == ["a"];
    PiecesAfterFirst("", "b", '=');
    assert "" + ['='] + "b" == "=b";
    PiecesAfterFirst("a", "=b", '=');
    assert "a" + ['='] + "=b" == "a==b";
  }

  /** The pairs the segments yield, in segment order. */
  function Pairs(segments: seq<string>): (ps: seq<(string, string)>)
    ensures forall p :: p in ps <==> exists j :: 0 <= j < |segments| && KeyValue(segments[j]) == Some(p)
  {
    if segments == [] then []
    else
      var rest := Pairs(segments[1..]);
      assert forall j :: 1 <= j < |segments| ==> segments[1..][j - 1] == segments[j];
      match KeyValue(segments[0])
      case None => rest
      case Some(p) => [p] + rest
  }

  /** Collecting pairs keeps segment order: the pairs of two runs of segments, one after the other. */
  lemma {:induction false} PairsAppend(a: seq<string>, b: seq<string>)
    ensures Pairs(a + b) == Pairs(a) + Pairs(b)
    decreases |a|
  {
    if a == [] {
      assert a + b == b;
    } else {
      var t := a[1..];
      var head := if KeyValue(a[0]).Some? then [KeyValue(a[0]).value] else [];
      calc {
        Pairs(a + b);
        { assert a + b == [a[0]] + (t + b); PairsCons(a[0], t + b); }
        head + Pairs(t + b);
        { PairsAppend(t, b); }
        head + (Pairs(t) + Pairs(b));
        (head + Pairs(t)) + Pairs(b);
        { assert a == [a[0]] + t; PairsCons(a[0], t); }
        Pairs(a) + Pairs(b);
      }
    }
  }

  /** The pairs of one segment followed by more: the segment's own pair, if any, comes first. */
  lemma PairsCons(x: string, rest: seq<string>)
    ensures Pairs([x] + rest) == (if KeyValue(x).Some? then [KeyValue(x).value] else []) + Pairs(rest)
  {
    assert ([x] + rest)[1..] == rest;
  }

  /** Every key and value passed through `decode`, key first, stopping at the first failure. */
  function DecodeAll(ps: seq<(string, string)>, decode: Decoder): (r: Result<seq<(string, string)>, JavaException>)
    ensures r.Success? <==>
      forall j :: 0 <= j < |ps| ==> decode(ps[j].0).Success? && decode(ps[j].1).Success?
    ensures r.Success? ==> |r.value| == |ps|
    ensures r.Success? ==>
      forall j :: 0 <= j < |ps| ==> r.value[j] == (decode(ps[j].0).value, decode(ps[j].1).value)
  {
    if ps == [] then Success([])
    else
      match decode(ps[0].0)
      case Failure(e) => Failure(e)
      case Success(k) =>
        match decode(ps[0].1)
        case Failure(e) => Failure(e)
        case Success(v) =>
          var rest := DecodeAll(ps[1..], decode);
          if rest.Failure? then rest else Success([(k, v)] + rest.value)
  }

  /** The decoder `parseQuery` effectively uses: none, every text stands for itself. */
  function Verbatim(text: string): Result<string, JavaException>
  {
    Success(text)
  }

  /**
   * The value of the last pair whose key is `key`, searching from the end: the reference
   * for what a sequence of `put`s leaves in a map.
   */
  function Latest(ps: seq<(string, string)>, key: string): (r: Option<string>)
    ensures r.None? <==> forall j :: 0 <= j < |ps| ==> ps[j].0 != key
    ensures r.Some? ==>
      exists j :: 0 <= j < |ps| && ps[j] == (key, r.value) && forall j' :: j < j' < |ps| ==> ps[j'].0 != key
  {
    if ps == [] then None
    else if ps[|ps| - 1].0 == key then Some(ps[|ps| - 1].1)
    else Latest(ps[..|ps| - 1], key)
  }

  /** A pair in front only matters for its key when no later pair has that key. */
  lemma {:induction false} LatestCons(p: (string, string), ps: seq<(string, string)>, key: string)
    ensures Latest([p] + ps, key) ==
      if Latest(ps, key).Some? then Latest(ps, key) else if p.0 == key then Some(p.1) else None
    decreases |ps|
  {
    var qs := [p] + ps;
    if ps == [] {
      assert qs[..0] == [];
    } else {
      assert qs[|qs| - 1] == ps[|ps| - 1];
      assert qs[..|qs| - 1] == [p] + ps[..|ps| - 1];
      LatestCons(p, ps[..|ps| - 1], key);
    }
  }

  /**
   * The loop of `parseQuery` and `parseForm`, from map `m` over the `&`-separated
   * segments: a segment with a pair has its key, then its value decoded and stored.
   */
  function Store(m: map<string, string>, segments: seq<string>, decode: Decoder): (r: Result<map<string, string>, JavaException>)
    ensures r.Success? ==> m.Keys <= r.value.Keys
    ensures (forall j :: 0 <= j < |segments| ==> KeyValue(segments[j]) == None) ==> r == Success(m)
    decreases |segments|
  {
    if segments == [] then Success(m)
    else
      match KeyValue(segments[0])
      case None => Store(m, segments[1..], decode)
      case Some((k, v)) =>
        match decode(k)
        case Failure(e) => Failure(e)
        case Success(dk) =>
          match decode(v)
          case Failure(e) => Failure(e)
          case Success(dv) => Store(m[dk := dv], segments[1..], decode)
  }

  /**
   * Map `r` is what `put`ting the pairs `ds` in order into `m` leaves: every key of `m` and
   * of `ds`, each holding the value of the last pair with that key, or else its value in `m`.
   */
  ghost predicate PutsAll(r: map<string, string>, m: map<string, string>, ds: seq<(string, string)>)
  {
    forall key :: (key in r <==> key in m || Latest(ds, key).Some?) &&
      (key in r ==> r[key] == if Latest(ds, key).Some? then Latest(ds, key).value else m[key])
  }

  /** Putting one pair first and then the rest is putting all of them. */
  lemma PutsAllCons(r: map<string, string>, m: map<string, string>, p: (string, string), ds: seq<(string, string)>)
    requires PutsAll(r, m[p.0 := p.1], ds)
    ensures PutsAll(r, m, [p] + ds)
  {
    forall key
      ensures (key in r <==> key in m || Latest([p] + ds, key).Some?)
      ensures key in r ==> r[key] == if Latest([p] + ds, key).Some? then Latest([p] + ds, key).value else m[key]
    {
      LatestCons(p, ds, key);
    }
  }

  /**
   * The loop succeeds exactly when every pair decodes, and then it leaves what putting the
   * decoded pairs in segment order into `m` leaves.
   */
  lemma {:induction false} StoreLastWins(m: map<string, string>, segments: seq<string>, decode: Decoder)
    ensures Store(m, segments, decode).Success? <==> DecodeAll(Pairs(segments), decode).Success?
    ensures Store(m, segments, decode).Success? ==>
      PutsAll(Store(m, segments, decode).value, m, DecodeAll(Pairs(segments), decode).value)
    decreases |segments|
  {
    if segments == [] {
      forall key ensures Latest([], key).None? { }
    } else {
      var rest := segments[1..];
      match KeyValue(segments[0])
      case None =>
        StoreLastWins(m, rest, decode);
      case Some((k, v)) =>
        assert Pairs(segments) == [(k, v)] + Pairs(rest);
        if decode(k).Success? && decode(v).Success? {
          var dk, dv := decode(k).value, decode(v).value;
          StoreLastWins(m[dk := dv], rest, decode);
          var tail := DecodeAll(Pairs(rest), decode);
          if tail.Success? {
            assert DecodeAll(Pairs(segments), decode).value == [(dk, dv)] + tail.value;
            PutsAllCons(Store(m, segments, decode).value, m, (dk, dv), tail.value);
          }
        }
    }
  }

  /**
   * `parseQuery(q)`: no map entries for a null query; otherwise exactly the keys of the
   * segments that split into two parts, each with the value of the last such segment.
   */
  function ParseQuery(q: Option<string>): (r: map<string, string>)
    ensures q.None? ==> r == map[]
    ensures q.Some? ==> PutsAll(r, map[], Pairs(Split(q.value, '&')))
  {
    match q
    case None => map[]
    case Some(text) =>
      var segments := Split(text, '&');
      StoreLastWins(map[], segments, Verbatim);
      assert DecodeAll(Pairs(segments), Verbatim).value == Pairs(segments);
      Store(map[], segments, Verbatim).value
  }

  /**
   * `parseForm(body)` with `URLDecoder.decode` as `decode`: the same splitting, failing
   * when any key or value fails to decode; the keys are the decoded keys, each holding
   * the decoded value of the last pair whose key decodes to it.
   */
  function ParseForm(body: Option<string>, decode: Decoder): (r: Result<map<string, string>, JavaException>)
    ensures body.None? ==> r == Success(map[])
    ensures body.Some? ==> (r.Success? <==> DecodeAll(Pairs(Split(body.value, '&')), decode).Success?)
    ensures body.Some? && r.Success? ==>
      PutsAll(r.value, map[], DecodeAll(Pairs(Split(body.value, '&')), decode).value)
  {
    match body
    case None => Success(map[])
    case Some(text) =>
      var segments := Split(text, '&');
      StoreLastWins(map[], segments, decode);
      Store(map[], segments, decode)
  }
}

=== FILE: spiral_data.dfy ===
/**
 * `generateFibonacciData`: the arcs of the spiral that the `/api/fibonacci` endpoint
 * describes, in world coordinates starting at the origin with angle 0. Each step ends the
 * current arc and places the next centre so that the next, larger arc starts where the
 * current one ends.
 */
module SpiralData {
  import opened Wrappers
  import opened JavaLang
  import opened Fibonacci
  import opened Quarter

  /** The state the loop carries between arcs: the centre and the angle in quarter turns. */
  datatype Cursor = Cursor(center: Point, quarter: nat)

  /**
   * One pass of the loop after an arc of radius `r` has been emitted: turn a quarter,
   * take the arc's end point, and back off from it by the look-ahead radius `rn`.
   */
  function Advance(cur: Cursor, r: real, rn: real): (next: Cursor)
    ensures next.quarter == cur.quarter + 1
    ensures Toward(next.center, rn, next.quarter) == Toward(cur.center, r, next.quarter)
  {
    var end := cur.quarter + 1;
    var e := Toward(cur.center, r, end);
    Cursor(Toward(e, -rn, end), end)
  }

  /** The arcs for loop indices `i` to `terms`, starting from cursor `cur`. */
  function Chain(fib: seq<Int32>, i: nat, terms: nat, cur: Cursor): (arcs: seq<Arc>)
    requires 1 <= i <= terms + 1 < |fib|
    ensures |arcs| == terms + 1 - i
    ensures forall k :: 0 <= k < |arcs| ==>
              arcs[k].radius == fib[i + k] as real && arcs[k].quarter == cur.quarter + k
    ensures |arcs| > 0 ==> arcs[0].center == cur.center
    ensures forall k :: 0 <= k < |arcs| - 1 ==> Tangent(arcs[k], arcs[k + 1])
    decreases terms + 1 - i
  {
    if i > terms then []
    else
      var r := fib[i] as real;
      [Arc(cur.center, r, cur.quarter)] + Chain(fib, i + 1, terms, Advance(cur, r, fib[i + 1] as real))
  }

  /**
   * The arc records `generateFibonacciData(terms)` emits, in emission order (the `%.4f`
   * text rendering of each record is not modelled). The table allocation can throw.
   */
  function Generate(terms: Int32): (r: Result<seq<Arc>, JavaException>)
    ensures r.Success? <==> 0 <= terms <= INT_MAX - 2
    ensures r.Success? ==> |r.value| == terms
    ensures r.Success? ==> forall k :: 0 <= k < terms ==>
              r.value[k].radius == Wrap(Fib(k + 1)) as real && r.value[k].quarter == k
    ensures r.Success? && terms > 0 ==> r.value[0].center == Point(0.0, 0.0)
    ensures r.Success? ==> forall k :: 0 <= k < terms - 1 ==> Tangent(r.value[k], r.value[k + 1])
  {
    match FibTable(terms)
    case Failure(e) => Failure(e)
    case Success(fib) => Success(Chain(fib, 1, terms, Cursor(Point(0.0, 0.0), 0)))
  }

  /**
   * For up to 45 arcs no table entry wraps, so arc k + 1 has exactly radius Fib(k + 1)
   * and start angle k * pi/2, and the first arc is the unit arc at the origin.
   */
  lemma GenerateExact(terms: Int32)
    requires 1 <= terms <= 45
    ensures Generate(terms).Success?
    ensures forall k :: 0 <= k < terms ==>
              Generate(terms).value[k].radius == Fib(k + 1) as real
    ensures Generate(terms).value[0] == Arc(Point(0.0, 0.0), 1.0, 0)
  {
    forall i | 1 <= i <= terms
      ensures Wrap(Fib(i)) == Fib(i)
    {
      FibFitsInt32(i);
    }
  }

  /** Six terms give radii 1, 1, 2, 3, 5, 8 at start angles 0, pi/2, ..., 5 pi/2. */
  lemma GenerateSix()
    ensures Generate(6).Success?
    ensures var a := Generate(6).value;
      [a[0].radius, a[1].radius, a[2].radius, a[3].radius, a[4].radius, a[5].radius]
        == [1.0, 1.0, 2.0, 3.0, 5.0, 8.0]
    ensures var a := Generate(6).value;
      [a[0].quarter, a[1].quarter, a[2].quarter, a[3].quarter, a[4].quarter, a[5].quarter]
        == [0, 1, 2, 3, 4, 5]
  {
    GenerateExact(6);
    assert Fib(6) == 8;
  }
}

=== FILE: spiral_image.dfy ===
/**
 * `renderFibonacciImage`: the geometry and colours of the arcs the `/api/fibonacci-image`
 * endpoint strokes. The walk starts at the canvas centre with angle 0; each arc has radius
 * 20 * fib[i] pixels and its own colour. The next centre is computed as `c + r (cos, sin)`
 * of the end angle, the arc's end point if y pointed up; but the canvas y axis points
 * down, and `Arc2D` draws the point at angle t of a circle at `c + r (cos t, -sin t)`.
 */
module SpiralImage {
  import opened Wrappers
  import opened JavaLang
  import opened Fibonacci
  import opened Quarter
  import opened SpiralData

  /** Pixels per unit of Fibonacci radius. */
  const SCALE: int := 20

  /** An sRGB colour as three integer channels. */
  datatype Rgb = Rgb(red: int, green: int, blue: int)

  /** One stroked arc: its geometry and its colour. */
  datatype Stroke = Stroke(arc: Arc, color: Rgb)

  /** The range `java.awt.Color` accepts for an integer channel. */
  predicate IsChannel(c: int)
  {
    0 <= c <= 255
  }

  /**
   * The colour of arc `i`: red rises by 10 and blue falls by 5 per arc, green stays 20.
   * The colour constructor throws as soon as a channel leaves 0..255, which on the arcs
   * the loop visits (i >= 1) first happens at i = 21.
   */
  function ArcColor(i: int): (r: Result<Rgb, JavaException>)
    ensures r.Success? <==> -5 <= i <= 20
    ensures r.Success? ==> IsChannel(r.value.red) && IsChannel(r.value.green) && IsChannel(r.value.blue)
    ensures i == 21 ==> r == Failure(IllegalColor(260, 20, 95))
  {
    var red, green, blue := 50 + i * 10, 20, 200 - i * 5;
    if IsChannel(red) && IsChannel(green) && IsChannel(blue) then Success(Rgb(red, green, blue))
    else Failure(IllegalColor(red, green, blue))
  }

  /** Along the arcs that can be drawn the colours form a gradient: redder and less blue. */
  lemma ColorGradient(i: int, j: int)
    requires 1 <= i < j <= 20
    ensures ArcColor(i).Success? && ArcColor(j).Success?
    ensures ArcColor(i).value.red < ArcColor(j).value.red
    ensures ArcColor(i).value.blue > ArcColor(j).value.blue
    ensures ArcColor(i).value.green == ArcColor(j).value.green
  {
  }

  /**
   * The point at angle q * pi/2 of the circle of radius `r` around `p`, where `Arc2D` puts
   * it on the canvas: angles run counter-clockwise as seen on screen and y points down, so
   * it is the y-up point of `Toward` seen in the mirror y -> -y.
   */
  function OnCanvas(p: Point, r: real, q: int): (d: Point)
    ensures d == Mirror(Toward(Mirror(p), r, q))
  {
    Point(p.x + r * Cos(q) as real, p.y - r * Sin(q) as real)
  }

  /** Reflection in the x axis, between y-up and y-down coordinates. */
  function Mirror(p: Point): Point
  {
    Point(p.x, -p.y)
  }

  /** Where `Arc2D` starts drawing the arc. */
  function DrawnStart(a: Arc): Point
  {
    OnCanvas(a.center, a.radius, a.quarter)
  }

  /** Where `Arc2D` stops drawing the arc, after its 90-degree sweep. */
  function DrawnEnd(a: Arc): Point
  {
    OnCanvas(a.center, a.radius, a.quarter + 1)
  }

  /** Two drawn arcs join smoothly on the canvas: the second starts where the first ends, at the first's end angle. */
  predicate MeetsOnCanvas(a: Arc, b: Arc)
  {
    DrawnEnd(a) == DrawnStart(b) && b.quarter == a.quarter + 1
  }

  /**
   * The pixel radius of arc `i`: the `int` product `fib[i] * 20`, wrapped to 32 bits,
   * converted to a double.
   */
  function PixelRadius(fib: seq<Int32>, i: nat): (r: real)
    requires i < |fib|
    ensures r == r.Floor as real && INT_MIN <= r.Floor <= INT_MAX
    ensures (r.Floor - fib[i] as int * SCALE) % TWO_32 == 0
    ensures INT_MIN <= fib[i] as int * SCALE <= INT_MAX ==> r == (fib[i] as int * SCALE) as real
  {
    Wrap(fib[i] as int * SCALE) as real
  }

  /**
   * The strokes for loop indices `i` to `terms` from cursor `cur`, as the code is written:
   * after an arc of radius r the centre moves to that arc's end point.
   */
  function Walk(fib: seq<Int32>, i: nat, terms: nat, cur: Cursor): (r: Result<seq<Stroke>, JavaException>)
    requires 1 <= i <= terms + 1 <= |fib|
    ensures r.Success? <==> i > terms || terms <= 20
    ensures i <= 21 <= terms ==> r == Failure(IllegalColor(260, 20, 95))
    ensures r.Success? ==> |r.value| == terms + 1 - i
    ensures r.Success? ==> forall k :: 0 <= k < |r.value| ==>
              && r.value[k].arc.radius == PixelRadius(fib, i + k)
              && r.value[k].arc.quarter == cur.quarter + k
              && ArcColor(i + k) == Success(r.value[k].color)
    ensures r.Success? && |r.value| > 0 ==> r.value[0].arc.center == cur.center
    ensures r.Success? ==> forall k :: 0 <= k < |r.value| - 1 ==>
              r.value[k + 1].arc.center == EndPoint(r.value[k].arc)
    decreases terms + 1 - i
  {
    if i > terms then Success([])
    else
      match ArcColor(i)
      case Failure(e) => Failure(e)
      case Success(color) =>
        var radius := PixelRadius(fib, i);
        var end := cur.quarter + 1;
        var rest := Walk(fib, i + 1, terms, Cursor(Toward(cur.center, radius, end), end));
        if rest.Failure? then rest
        else Success([Stroke(Arc(cur.center, radius, cur.quarter), color)] + rest.value)
  }

  /** The canvas centre (W / 2.0, H / 2.0), where the walk starts: as far from each edge as from the opposite one. */
  function Centre(w: Int32, h: Int32): (c: Point)
    ensures c.x - 0.0 == w as real - c.x && c.y - 0.0 == h as real - c.y
  {
    Point(w as real / 2.0, h as real / 2.0)
  }

  /**
   * The strokes `renderFibonacciImage(terms, w, h)` draws. The endpoint passes `terms`
   * unclamped: a negative count (or one so large that `terms + 2` overflows) fails in the
   * table, and any other count above 20 fails in the colour of arc 21.
   */
  function Render(terms: Int32, w: Int32, h: Int32): (r: Result<seq<Stroke>, JavaException>)
    ensures r.Success? <==> 0 <= terms <= 20
    ensures 20 < terms <= INT_MAX - 2 ==> r == Failure(IllegalColor(260, 20, 95))
    ensures INT_MAX - 2 < terms ==> r.Failure? && r.error.NegativeArraySize?
    ensures r.Success? ==> |r.value| == terms
    ensures r.Success? ==> forall k :: 0 <= k < terms - 1 ==>
              r.value[k + 1].arc.center == EndPoint(r.value[k].arc)
  {
    match FibTable(terms)
    case Failure(e) => Failure(e)
    case Success(fib) => Walk(fib, 1, terms, Cursor(Centre(w, h), 0))
  }

  /** Up to i = 21 the radius 20 * Fib(i) is computed with no `int` wrap-around. */
  lemma PixelRadiusExact(fib: seq<Int32>, i: nat)
    requires i <= 21 && i < |fib| && fib[i] == Wrap(Fib(i))
    ensures PixelRadius(fib, i) == (SCALE * Fib(i)) as real
  {
    FibFitsInt32(i);
    FibMonotone(i, 21);
    FibAt21();
    assert 0 <= Fib(i) * SCALE <= 10946 * SCALE;
  }

  /**
   * What a successful render draws: arc k + 1 is centred on the canvas centre or on the
   * previous arc's end, has radius 20 * Fib(k + 1), starts at angle k * pi/2 and has colour
   * (50 + 10 (k + 1), 20, 200 - 5 (k + 1)).
   */
  lemma RenderStrokes(terms: Int32, w: Int32, h: Int32)
    requires 0 <= terms <= 20
    ensures Render(terms, w, h).Success?
    ensures var s := Render(terms, w, h).value;
      forall k :: 0 <= k < terms ==>
        && s[k].arc.radius == (SCALE * Fib(k + 1)) as real
        && s[k].arc.quarter == k
        && s[k].color == Rgb(50 + 10 * (k + 1), 20, 200 - 5 * (k + 1))
    ensures terms > 0 ==> Render(terms, w, h).value[0].arc.center == Centre(w, h)
  {
    var fib := FibTable(terms).value;
    forall i | 1 <= i <= terms
      ensures PixelRadius(fib, i) == (SCALE * Fib(i)) as real
    {
      PixelRadiusExact(fib, i);
    }
  }
}

/**
 * The image walk corrected so that consecutive drawn arcs meet. As written, the centre
 * moves to the arc's y-up end point, so on the canvas each arc starts away from where the
 * previous one ends. The corrected step backs off from the drawn end point by the next
 * pixel radius, in canvas coordinates, as the geometry endpoint's loop does in world
 * coordinates.
 */
module TangentImage {
  import opened Wrappers
  import opened JavaLang
  import opened Fibonacci
  import opened Quarter
  import opened SpiralData
  import opened SpiralImage

  /**
   * As written, for 2 to 20 terms no drawn arc of the image starts where the previous one
   * ends, so the strokes never form a connected curve.
   */
  lemma ImageArcsLeaveGaps(terms: Int32, w: Int32, h: Int32)
    requires 2 <= terms <= 20
    ensures Render(terms, w, h).Success?
    ensures var s := Render(terms, w, h).value;
      forall k :: 0 <= k < terms - 1 ==> DrawnEnd(s[k].arc) != DrawnStart(s[k + 1].arc)
  {
    RenderStrokes(terms, w, h);
    var s := Render(terms, w, h).value;
    assert |s| == terms;
    forall k | 0 <= k < terms - 1
      ensures DrawnEnd(s[k].arc) != DrawnStart(s[k + 1].arc)
    {
      FibonacciArcsGap(s[k].arc, s[k + 1].arc, k);
    }
  }

  /**
   * Image arcs k + 1 and k + 2 (radii 20 Fib(k + 1) and 20 Fib(k + 2), the second centred
   * on the first's y-up end point) never meet on the canvas: for odd k the second starts
   * off along the cosine, for even k the second radius is not twice the first.
   */
  lemma FibonacciArcsGap(a: Arc, b: Arc, k: nat)
    requires a.radius == (SCALE * Fib(k + 1)) as real && b.radius == (SCALE * Fib(k + 2)) as real
    requires b.center == EndPoint(a) && a.quarter == k && b.quarter == k + 1
    ensures DrawnEnd(a) != DrawnStart(b)
  {
    FibMonotone(1, k + 2);
    if k % 2 == 0 {
      FibGrows(k);
      assert Fib(k + 2) != 2 * Fib(k + 1);
    }
    CentredOnEndGapIfUneven(a, b);
  }

  /**
   * An arc of positive radius centred on the previous arc's y-up end point starts away
   * from that arc's drawn end, unless it leaves at a vertical tangent with exactly twice
   * the previous radius.
   */
  lemma CentredOnEndGapIfUneven(a: Arc, b: Arc)
    requires b.center == EndPoint(a) && b.quarter == a.quarter + 1 && b.radius > 0.0
    requires b.quarter % 2 == 1 ==> b.radius != 2.0 * a.radius
    ensures DrawnEnd(a) != DrawnStart(b)
  {
    CentredOnEndGap(a, b);
    if b.quarter % 2 == 1 {
      assert Sin(b.quarter) * Sin(b.quarter) == 1;
    } else {
      assert Cos(b.quarter) * Cos(b.quarter) == 1;
    }
  }

  /** Apart from the two ones at indices 1 and 2, each Fibonacci number is below the next. */
  lemma FibGrows(k: nat)
    requires k != 1
    ensures Fib(k) < Fib(k + 1)
  {
    if k >= 2 {
      FibMonotone(1, k - 1);
    }
  }

  /**
   * An arc centred on the y-up end point of the previous arc, one quarter further on,
   * starts on the canvas exactly where the previous one ends if and only if its radius
   * times the cosine of its start angle is zero and twice the previous radius minus its
   * own, times the sine, is zero.
   */
  lemma CentredOnEndGap(a: Arc, b: Arc)
    requires b.center == EndPoint(a) && b.quarter == a.quarter + 1
    ensures DrawnEnd(a) == DrawnStart(b) <==>
      b.radius * Cos(b.quarter) as real == 0.0 && (2.0 * a.radius - b.radius) * Sin(b.quarter) as real == 0.0
  {
  }

  /** The smallest instance: on a 600 x 600 canvas the first arc ends at (300, 280) but the second starts at (300, 300). */
  lemma ImageGapExample()
    ensures Render(2, 600, 600).Success?
    ensures DrawnEnd(Render(2, 600, 600).value[0].arc) == Point(300.0, 280.0)
    ensures DrawnStart(Render(2, 600, 600).value[1].arc) == Point(300.0, 300.0)
  {
    RenderStrokes(2, 600, 600);
    assert Fib(2) == 1;
  }

  /**
   * One corrected step on the canvas after an arc of radius `r`: turn a quarter, take the
   * drawn end point and back off from it by the next radius `rn`.
   */
  function CanvasAdvance(cur: Cursor, r: real, rn: real): (next: Cursor)
    ensures next.quarter == cur.quarter + 1
    ensures OnCanvas(next.center, rn, next.quarter) == OnCanvas(cur.center, r, next.quarter)
  {
    var end := cur.quarter + 1;
    Cursor(OnCanvas(OnCanvas(cur.center, r, end), -rn, end), end)
  }

  /** The corrected walk: like `Walk`, with the centre stepping by `CanvasAdvance`. */
  function TangentWalk(fib: seq<Int32>, i: nat, terms: nat, cur: Cursor): (r: Result<seq<Stroke>, JavaException>)
    requires 1 <= i <= terms + 1 < |fib|
    ensures r.Success? <==> i > terms || terms <= 20
    ensures r.Success? ==> |r.value| == terms + 1 - i
    ensures r.Success? ==> forall k :: 0 <= k < |r.value| ==>
              && r.value[k].arc.radius == PixelRadius(fib, i + k)
              && r.value[k].arc.quarter == cur.quarter + k
              && ArcColor(i + k) == Success(r.value[k].color)
    ensures r.Success? && |r.value| > 0 ==> r.value[0].arc.center == cur.center
    ensures r.Success? ==> forall k :: 0 <= k < |r.value| - 1 ==>
              MeetsOnCanvas(r.value[k].arc, r.value[k + 1].arc)
    decreases terms + 1 - i
  {
    if i > terms then Success([])
    else
      match ArcColor(i)
      case Failure(e) => Failure(e)
      case Success(color) =>
        var radius := PixelRadius(fib, i);
        var rest := TangentWalk(fib, i + 1, terms, CanvasAdvance(cur, radius, PixelRadius(fib, i + 1)));
        if rest.Failure? then rest
        else Success([Stroke(Arc(cur.center, radius, cur.quarter), color)] + rest.value)
  }

  /** The corrected render: same table, colours and start, with drawn arcs that meet. */
  function RenderTangent(terms: Int32, w: Int32, h: Int32): (r: Result<seq<Stroke>, JavaException>)
    ensures r.Success? <==> 0 <= terms <= 20
    ensures r.Success? ==> |r.value| == terms
    ensures r.Success? ==> forall k :: 0 <= k < terms - 1 ==>
              MeetsOnCanvas(r.value[k].arc, r.value[k + 1].arc)
  {
    match FibTable(terms)
    case Failure(e) => Failure(e)
    case Success(fib) => TangentWalk(fib, 1, terms, Cursor(Centre(w, h), 0))
  }

  /**
   * A world point placed on the canvas: scaled by 20 pixels per unit about origin `o`,
   * with the y axis turned to point down.
   */
  function PlacePoint(p: Point, o: Point): Point
  {
    Point(o.x + SCALE as real * p.x, o.y - SCALE as real * p.y)
  }

  /** A world arc placed on the canvas about origin `o`. */
  function Place(a: Arc, o: Point): Arc
  {
    Arc(PlacePoint(a.center, o), SCALE as real * a.radius, a.quarter)
  }

  /**
   * Placing maps a world arc's start and end points to where the placed arc is drawn, so
   * two world arcs are tangent if and only if their placed arcs meet on the canvas.
   */
  lemma PlaceKeepsTangency(a: Arc, b: Arc, o: Point)
    ensures DrawnStart(Place(a, o)) == PlacePoint(StartPoint(a), o)
    ensures DrawnEnd(Place(a, o)) == PlacePoint(EndPoint(a), o)
    ensures Tangent(a, b) <==> MeetsOnCanvas(Place(a, o), Place(b, o))
  {
    PlaceToward(a.center, a.radius, a.quarter, o);
    PlaceToward(a.center, a.radius, a.quarter + 1, o);
    PlaceToward(b.center, b.radius, b.quarter, o);
    PlaceInjective(EndPoint(a), StartPoint(b), o);
  }

  /** Placing a point at distance `r` in direction q * pi/2 gives the canvas point at distance 20 r. */
  lemma PlaceToward(p: Point, r: real, q: int, o: Point)
    ensures PlacePoint(Toward(p, r, q), o) == OnCanvas(PlacePoint(p, o), SCALE as real * r, q)
  {
    var c, s := Cos(q) as real, Sin(q) as real;
    assert SCALE as real * (r * c) == (SCALE as real * r) * c;
    assert SCALE as real * (r * s) == (SCALE as real * r) * s;
  }

  /** Distinct world points land on distinct canvas points. */
  lemma PlaceInjective(p: Point, p': Point, o: Point)
    ensures PlacePoint(p, o) == PlacePoint(p', o) <==> p == p'
  {
  }

  /** Placing commutes with one chaining step: the world step of lines 145-146 becomes the canvas step. */
  lemma PlaceAdvance(cur: Cursor, r: real, rn: real, o: Point)
    ensures Cursor(PlacePoint(Advance(cur, r, rn).center, o), cur.quarter + 1)
         == CanvasAdvance(Cursor(PlacePoint(cur.center, o), cur.quarter), SCALE as real * r, SCALE as real * rn)
  {
  }

  /** The corrected walk draws exactly the geometry endpoint's chain, placed on the canvas. */
  lemma {:induction false} TangentWalkPlacesChain(fib: seq<Int32>, i: nat, terms: nat, cur: Cursor, o: Point)
    requires 1 <= i <= terms + 1 < |fib| && terms <= 20
    requires forall j :: i <= j <= terms + 1 ==> PixelRadius(fib, j) == (SCALE * fib[j]) as real
    ensures TangentWalk(fib, i, terms, Cursor(PlacePoint(cur.center, o), cur.quarter)).Success?
    ensures forall k :: 0 <= k < terms + 1 - i ==>
              TangentWalk(fib, i, terms, Cursor(PlacePoint(cur.center, o), cur.quarter)).value[k].arc
                == Place(Chain(fib, i, terms, cur)[k], o)
    decreases terms + 1 - i
  {
    if i <= terms {
      var r := fib[i] as real;
      var rn := fib[i + 1] as real;
      var next := Advance(cur, r, rn);
      var placed := Cursor(PlacePoint(cur.center, o), cur.quarter);
      var placedNext := Cursor(PlacePoint(next.center, o), next.quarter);
      PlaceAdvance(cur, r, rn, o);
      assert CanvasAdvance(placed, PixelRadius(fib, i), PixelRadius(fib, i + 1)) == placedNext;
      TangentWalkPlacesChain(fib, i + 1, terms, next, o);
      var w := TangentWalk(fib, i, terms, placed).value;
      var rest := TangentWalk(fib, i + 1, terms, placedNext).value;
      var c := Chain(fib, i, terms, cur);
      var cs := Chain(fib, i + 1, terms, next);
      assert w[1..] == rest;
      assert c[1..] == cs;
      forall k | 0 <= k < terms + 1 - i
        ensures w[k].arc == Place(c[k], o)
      {
        if k > 0 {
          assert w[k] == rest[k - 1];
          assert c[k] == cs[k - 1];
        }
      }
    }
  }

  /**
   * With the correction, the image is the geometry endpoint's spiral scaled to 20 pixels
   * per unit, turned y-down and moved to the canvas centre: one spiral, two renderings.
   */
  lemma RenderTangentIsPlacedData(terms: Int32, w: Int32, h: Int32)
    requires 0 <= terms <= 20
    ensures RenderTangent(terms, w, h).Success? && Generate(terms).Success?
    ensures forall k :: 0 <= k < terms ==>
              RenderTangent(terms, w, h).value[k].arc == Place(Generate(terms).value[k], Centre(w, h))
  {
    var fib := FibTable(terms).value;
    forall j | 1 <= j <= terms + 1
      ensures PixelRadius(fib, j) == (SCALE * fib[j]) as real
    {
      PixelRadiusExact(fib, j);
      FibFitsInt32(j);
    }
    assert PlacePoint(Point(0.0, 0.0), Centre(w, h)) == Centre(w, h);
    TangentWalkPlacesChain(fib, 1, terms, Cursor(Point(0.0, 0.0), 0), Centre(w, h));
  }
}

=== FILE: split.dfy ===
/**
 * `String.split` with a one-character literal separator and no limit, as Java defines it:
 * a string without the separator splits into itself alone (so "" gives [""]); otherwise
 * it splits at every separator and the trailing empty pieces are dropped.
 */
module JavaSplit {

  /** Position of the first `d` in `s`. */
  function IndexOf(s: string, d: char): (i: nat)
    requires d in s
    ensures i < |s| && s[i] == d && d !in s[..i]
  {
    if s[0] == d then 0 else 1 + IndexOf(s[1..], d)
  }

  /** `n` copies of `c`. */
  function Repeat<T>(c: T, n: nat): (r: seq<T>)
    ensures |r| == n && forall j :: 0 <= j < n ==> r[j] == c
  {
    if n == 0 then [] else [c] + Repeat(c, n - 1)
  }

  /** The pieces between the separators, empty ones included. */
  function Pieces(s: string, d: char): (parts: seq<string>)
    ensures |parts| >= 1
    ensures forall j :: 0 <= j < |parts| ==> d !in parts[j]
    decreases |s|
  {
    if d in s then
      var i := IndexOf(s, d);
      [s[..i]] + Pieces(s[i + 1..], d)
    else [s]
  }

  /** The pieces joined back with the separator. */
  function Join(parts: seq<string>, d: char): string
  {
    if |parts| == 0 then ""
    else if |parts| == 1 then parts[0]
    else parts[0] + [d] + Join(parts[1..], d)
  }

  /** Splitting loses nothing: the pieces join back to the original string. */
  lemma {:induction false} JoinPieces(s: string, d: char)
    ensures Join(Pieces(s, d), d) == s
    decreases |s|
  {
    if d in s {
      var i := IndexOf(s, d);
      var rest := Pieces(s[i + 1..], d);
      calc {
        Join(Pieces(s, d), d);
        { PiecesStep(s, d); }
        Join([s[..i]] + rest, d);
        { JoinCons(s[..i], rest, d); }
        s[..i] + [d] + Join(rest, d);
        { JoinPieces(s[i + 1..], d); }
        s[..i] + [d] + s[i + 1..];
        { assert s == s[..i] + [d] + s[i + 1..]; }
        s;
      }
    }
  }

  /** With the separator present, the first piece runs up to its first occurrence. */
  lemma PiecesStep(s: string, d: char)
    requires d in s
    ensures Pieces(s, d) == [s[..IndexOf(s, d)]] + Pieces(s[IndexOf(s, d) + 1..], d)
  {
  }

  /** Joining a first part before at least one more puts a separator between them. */
  lemma JoinCons(x: string, rest: seq<string>, d: char)
    requires |rest| >= 1
    ensures Join([x] + rest, d) == x + [d] + Join(rest, d)
  {
    assert ([x] + rest)[1..] == rest;
  }

  /** Separator-free pieces are recovered by splitting their join. */
  lemma {:induction false} PiecesJoin(parts: seq<string>, d: char)
    requires |parts| >= 1
    requires forall j :: 0 <= j < |parts| ==> d !in parts[j]
    ensures Pieces(Join(parts, d), d) == parts
  {
    if |parts| > 1 {
      PiecesJoin(parts[1..], d);
      PiecesAfterFirst(parts[0], Join(parts[1..], d), d);
      assert parts == [parts[0]] + parts[1..];
    }
  }

  /** A separator-free prefix followed by a separator is split off as the first piece. */
  lemma PiecesAfterFirst(a: string, rest: string, d: char)
    requires d !in a
    ensures Pieces(a + [d] + rest, d) == [a] + Pieces(rest, d)
  {
    var s := a + [d] + rest;
    assert s[|a|] == d;
    assert s[..|a|] == a;
    assert IndexOf(s, d) == |a|;
    assert s[|a| + 1..] == rest;
  }

  /** Drops the empty strings at the end of `xs`. */
  function StripTrailingEmpty(xs: seq<string>): (r: seq<string>)
    ensures |r| <= |xs| && r == xs[..|r|]
    ensures |r| == 0 || r[|r| - 1] != ""
    ensures forall j :: |r| <= j < |xs| ==> xs[j] == ""
  {
    if |xs| > 0 && xs[|xs| - 1] == "" then StripTrailingEmpty(xs[..|xs| - 1]) else xs
  }

  /**
   * `s.split(d)`: a string without the separator is its own single part; otherwise the
   * pieces with the trailing empty ones dropped, which leaves no part at all exactly when
   * the string is nothing but separators.
   */
  function Split(s: string, d: char): (parts: seq<string>)
    ensures forall j :: 0 <= j < |parts| ==> d !in parts[j]
    ensures d !in s ==> parts == [s]
    ensures d in s ==> |parts| == 0 || parts[|parts| - 1] != ""
    ensures d in s ==> (|parts| == 0 <==> forall j :: 0 <= j < |s| ==> s[j] == d)
  {
    if d in s then
      StrippedEmptyIff(s, d);
      StripTrailingEmpty(Pieces(s, d))
    else [s]
  }

  /**
   * Whenever the separator occurs, splitting keeps everything but trailing separators:
   * the string is the join of its parts followed by the separators whose pieces were
   * dropped as empty; with no parts left, it is one separator fewer than there were pieces.
   */
  lemma SplitRebuilds(s: string, d: char)
    requires d in s
    ensures |Split(s, d)| > 0 ==> s == Join(Split(s, d), d) + Repeat(d, |Pieces(s, d)| - |Split(s, d)|)
    ensures |Split(s, d)| == 0 ==> s == Repeat(d, |Pieces(s, d)| - 1)
  {
    StrippedRebuilds(s, d);
  }

  /** `SplitRebuilds` for the stripped pieces of any string. */
  lemma StrippedRebuilds(s: string, d: char)
    ensures var kept := StripTrailingEmpty(Pieces(s, d));
      |kept| > 0 ==> s == Join(kept, d) + Repeat(d, |Pieces(s, d)| - |kept|)
    ensures |StripTrailingEmpty(Pieces(s, d))| == 0 ==> s == Repeat(d, |Pieces(s, d)| - 1)
  {
    var all := Pieces(s, d);
    var kept := StripTrailingEmpty(all);
    var n := |all| - |kept|;
    assert all == kept + Repeat("", n);
    JoinPieces(s, d);
    if |kept| > 0 {
      JoinTrailingEmpty(kept, n, d);
    } else {
      assert all == [""] + Repeat("", n - 1);
      JoinEmpties("", n - 1, d);
    }
  }

  /** The stripped pieces are empty exactly when every character is the separator. */
  lemma StrippedEmptyIff(s: string, d: char)
    ensures |StripTrailingEmpty(Pieces(s, d))| == 0 <==> forall j :: 0 <= j < |s| ==> s[j] == d
  {
    var all := Pieces(s, d);
    var kept := StripTrailingEmpty(all);
    StrippedRebuilds(s, d);
    if |kept| > 0 {
      var last := kept[|kept| - 1];
      assert last == all[|kept| - 1];
      var pre := JoinEndsWith(kept, d);
      assert s == pre + last + Repeat(d, |all| - |kept|);
      assert s[|pre|] == last[0] != d;
    }
  }

  /** The join of some parts ends with the last part; `pre` is what comes before it. */
  lemma {:induction false} JoinEndsWith(parts: seq<string>, d: char) returns (pre: string)
    requires |parts| >= 1
    ensures Join(parts, d) == pre + parts[|parts| - 1]
    decreases |parts|
  {
    if |parts| == 1 {
      pre := "";
    } else {
      var rest := JoinEndsWith(parts[1..], d);
      pre := parts[0] + [d] + rest;
    }
  }

  /** Joining extra empty pieces appends one separator per piece. */
  lemma {:induction false} JoinTrailingEmpty(parts: seq<string>, n: nat, d: char)
    requires |parts| >= 1
    ensures Join(parts + Repeat("", n), d) == Join(parts, d) + Repeat(d, n)
    decreases |parts|
  {
    if |parts| == 1 {
      JoinEmpties(parts[0], n, d);
    } else {
      assert (parts + Repeat("", n))[1..] == parts[1..] + Repeat("", n);
      JoinTrailingEmpty(parts[1..], n, d);
    }
  }

  /** `x` followed by `n` empty pieces joins to `x` followed by `n` separators. */
  lemma {:induction false} JoinEmpties(x: string, n: nat, d: char)
    ensures Join([x] + Repeat("", n), d) == x + Repeat(d, n)
    decreases n
  {
    if n > 0 {
      assert ([x] + Repeat("", n))[1..] == [""] + Repeat("", n - 1);
      JoinEmpties("", n - 1, d);
      assert Repeat(d, n) == [d] + Repeat(d, n - 1);
    }
  }
}

=== FILE: terms.dfy ===
/**
 * The `/api/fibonacci` endpoint's handling of the term count: the parsed value is clamped
 * into [1, 20] before the geometry is generated. (The image endpoint does no clamping;
 * see `SpiralImage.Render`.)
 */
module Terms {
  import opened Wrappers
  import opened JavaLang
  import opened Fibonacci
  import opened Quarter
  import opened SpiralData

  const MIN_TERMS: int := 1
  const MAX_TERMS: int := 20

  /** Distance between two integers. */
  function Dist(a: int, b: int): nat
  {
    if a < b then b - a else a - b
  }

  /**
   * The two guards, which raise a count below 1 to 1 and then lower one above 20 to 20: the result is
   * in range, leaves an in-range count alone, and is the in-range count nearest the input.
   */
  function Clamp(terms: Int32): (r: Int32)
    ensures MIN_TERMS <= r <= MAX_TERMS
    ensures MIN_TERMS <= terms <= MAX_TERMS ==> r == terms
    ensures forall k :: MIN_TERMS <= k <= MAX_TERMS ==> Dist(r, terms) <= Dist(k, terms)
  {
    var t := if terms < MIN_TERMS then MIN_TERMS else terms;
    if t > MAX_TERMS then MAX_TERMS else t
  }

  /** Clamping twice is clamping once. */
  lemma ClampIdempotent(terms: Int32)
    ensures Clamp(Clamp(terms)) == Clamp(terms)
  {
  }

  /**
   * The geometry the endpoint returns for a parsed term count: it never fails, has one arc
   * per clamped term, radii the exact Fibonacci numbers, starts with the unit arc at the
   * origin, and every arc is tangent to the next.
   */
  function FibonacciEndpoint(terms: Int32): (arcs: seq<Arc>)
    ensures |arcs| == Clamp(terms)
    ensures forall k :: 0 <= k < |arcs| ==> arcs[k].radius == Fib(k + 1) as real && arcs[k].quarter == k
    ensures arcs[0] == Arc(Point(0.0, 0.0), 1.0, 0)
    ensures forall k :: 0 <= k < |arcs| - 1 ==> Tangent(arcs[k], arcs[k + 1])
  {
    var n := Clamp(terms);
    GenerateExact(n);
    Generate(n).value
  }
}

=== FILE: wrappers.dfy ===
/** Option and Result: the model's stand-ins for Java's `null` and for a thrown exception. */
module Wrappers {

  /** `None` plays the part of a Java `null` reference. */
  datatype Option<+T> = None | Some(value: T)

  /** `Failure` is the exception a Java expression would have thrown. */
  datatype Result<+R, +E> = Success(value: R) | Failure(error: E)
}
